=== FILE: README.md ===
# Restaurant reservations: request checks and the reservations table

This project models the reservation routes of a restaurant-reservation backend.
It covers the chain of checks each route runs before its handler, the handlers
themselves, and the queries those handlers issue against the reservations table.

- `json.dfy` (`Json`): the JavaScript values a JSON request body can hold, with
  truthiness, own-property lookup and template-literal text.
- `errors.dfy` (`Errors`): the errors the checks raise (HTTP status and reason)
  with their message texts. It also defines `FirstFailure`, the meaning of a
  fail-fast chain of checks.
- `calendar.dfy` (`Calendar`): what the schedule check learns from `Date`. A
  `Clock` supplies the current instant and stands in for JavaScript's date parsing.
- `validators.dfy` (`Validators`): `validateData`, `validateBody`,
  `validateDate`, `validateReservation`, `validateUpdateStatus`.
- `service.dfy` (`Service`): the reservations table as a map from
  `reservation_id` to row, plus the next id of the sequence. It provides `list`
  (by date, by phone-number prefix, or everything), `create`, `read`, `update`
  and `updateStatus`.
- `controller.dfy` (`Controller`): the `list`, `create`, `read`, `update` and
  `updateStatus` routes. Each is an early-exit composition of the checks
  followed by its handler, returning the outcome and the new store.
- `route_properties.dfy` (`RouteProperties`): properties of the routes as a
  whole. They cover which error wins, what is stored, and the invariants kept.
- `text.dfy`, `options.dfy`: decimal digits, lexicographic order, `Option`.

Behaviour of the code that the model keeps as written:

- A `people` value of 1.5 is accepted, because integrality is not checked.
- The update route has no `finished` check, so a finished reservation can be
  rewritten through it (`RouteProperties.FinishedCanBeEdited`).
- A body status that is falsy, such as `""`, passes `validateBody`. The full
  update then stores it (`RouteProperties.UpdateCanStoreFalsyStatus`). The store
  invariant every route keeps is therefore "status is one of the four values or
  falsy" (`Controller.WellFormedStore`).
- The status route has no transition rules beyond the `finished` freeze.
  `cancelled` → `booked` is accepted.
- If the date text makes an Invalid Date, every comparison in `validateDate` is
  false and all schedule rules are skipped (`Validators.InvalidDatePasses`).
- `validateBody` calls `data.hasOwnProperty(field)`. A `data` object with an own
  key `"hasOwnProperty"` hides that method, so the call throws a TypeError. The
  request then ends in a 500 instead of any 400
  (`RouteProperties.ShadowedHasOwnPropertyFails`).
- Create and the full update send every property of `data` to the database. A
  body with an extra key, such as `notes`, passes every check and is then
  refused by the database with a 500 (`RouteProperties.UnknownColumnRefused`).
- The status route spreads the bare status text into the general update, so
  every status change the checks accept is refused by the database
  (see Findings).

## Model

| member | source | states |
|---|---|---|
| Validators.ValidateData | src/reservations/reservations.controller.js:23-32 | passes exactly when the body's `data` is truthy; otherwise 400 with the missing-body reason |
| Validators.FirstMissing | src/reservations/reservations.controller.js:47-54 | returns the index of the first required field, in the fixed order, that is not an own property or is `""`; all fields before it are supplied |
| Validators.ValidateBody | src/reservations/reservations.controller.js:37-92 | passes exactly when `data` has no own `hasOwnProperty`, all six required fields are supplied, the date and time parse, `people` is a number ≥ 1 and the status is falsy or "booked"; an own `hasOwnProperty` fails first with the 500 TypeError, and every other failure is a 400; passing implies `data` is an object |
| Validators.ReportsFirstMissingField | src/reservations/reservations.controller.js:38-54 | when the method lookup does not throw and field i is the first one missing or `""`, the error is "Field required" naming that field, whatever else is wrong |
| Validators.PeopleChecks | src/reservations/reservations.controller.js:70-82 | with the fields present and the date parsing: a non-number `people` is refused, a number < 1 is refused, and any number ≥ 1 (fractions included) gets past both checks |
| Validators.ZeroPeopleIsSupplied | src/reservations/reservations.controller.js:47-82 | a present `people: 0` counts as supplied for the presence check and is refused by the range check |
| Validators.StatusCheck | src/reservations/reservations.controller.js:84-89 | once everything else is acceptable, the body passes iff its status is falsy or "booked"; any other truthy status is refused with 400 quoting it |
| Validators.ValidateDate | src/reservations/reservations.controller.js:97-150 | every schedule failure is a 400 |
| Controller.DateCheck | src/reservations/reservations.controller.js:97-150 | on the `Date` built from the body's date and time: an Invalid Date passes; a valid one passes iff it is not a UTC Tuesday, not before now, and 10:30 ≤ hh:mm ≤ 21:30; every failure is a 400 |
| Validators.TuesdayWins | src/reservations/reservations.controller.js:103-116 | a UTC Tuesday is refused as closed even when it is also in the past or out of hours |
| Validators.PastIsStrict | src/reservations/reservations.controller.js:110-116 | on an open day the past error is raised iff the instant is strictly before now; now itself is accepted |
| Validators.OpeningHours | src/reservations/reservations.controller.js:118-147 | on an open day, not in the past: accepted iff 10:30 ≤ hh:mm ≤ 21:30; before 10:30 "not open", from 22:30 "closed after", 21:31–22:29 "hour before closing" |
| Validators.InvalidDatePasses | src/reservations/reservations.controller.js:98-147 | an Invalid Date passes every schedule rule |
| Validators.ValidateReservation | src/reservations/reservations.controller.js:167-181 | finds the row exactly when the route parameter reads as an id that is stored; otherwise 404 naming the parameter |
| Validators.FindsStoredReservation | src/reservations/reservations.controller.js:168-169 | every stored reservation is found under the decimal text of its id |
| Validators.ValidateUpdateStatus | src/reservations/reservations.controller.js:187-215 | passes iff the status is one of booked/seated/finished/cancelled and the stored row is not finished; a falsy status is "missing", an unknown one is refused before the finished check, and a known one on a finished row is refused as frozen; all are 400 |
| Errors.Message | src/reservations/reservations.controller.js:27-210 | a field-required message is the fixed prefix ending in a quote, the field name, and a closing quote; a status refusal is its fixed prefix followed by the refused value as text; an unknown-id message is its prefix, the route parameter as given, and its fixed suffix |
| Errors.FieldMessageInjective | src/reservations/reservations.controller.js:48-53 | two field-required messages are equal iff they name the same field |
| Errors.FirstFailure | src/reservations/reservations.controller.js:245-266 | a chain of checks passes iff every check passes; otherwise it answers a failing check all of whose predecessors pass |
| Service.Patch | src/reservations/reservations.service.js:33-38 | every column named in the update takes the supplied value, every other column and the id keep theirs |
| Service.Create | src/reservations/reservations.service.js:21-25 | the new row gets the sequence's next id, which is not yet stored; supplied columns hold the supplied values; other rows are unchanged and the store stays valid; a `reservation_id` in the supplied fields is ignored (see Left out) |
| Service.Read | src/reservations/reservations.service.js:27-31 | finds a row exactly when the id is stored, and then it is the stored row; in a valid store its id is the one asked for |
| Service.ReadAfterCreate | src/reservations/reservations.service.js:21-31 | reading the id just created returns the inserted row with the supplied fields |
| Service.Update | src/reservations/reservations.service.js:33-38 | only the row with that id changes, to the patched row, which is also returned; an unknown id changes nothing and returns no rows; validity is kept; a `reservation_id` in the supplied fields is ignored (see Left out) |
| Service.UpdateStatus | src/reservations/reservations.service.js:40-44 | only the status of the row with that id changes; every other column and every other row are unchanged |
| Service.UpdateStatusIsStatusPatch | src/reservations/reservations.service.js:33-44 | the status-only write equals the general update with the single field `status` |
| Service.Filter | src/reservations/reservations.controller.js:13-15 | keeps exactly the rows of the input that the filter matches |
| Service.FilterAppend | src/reservations/reservations.controller.js:13-15 | filtering commutes with concatenation, so kept rows keep their relative order |
| Service.AllRowsExactly | src/reservations/reservations.service.js:17-18 | listing everything yields exactly the stored rows, each once, in id order |
| Service.SortByTime | src/reservations/reservations.service.js:8 | the result is ordered by `reservation_time` and is a permutation of the input |
| Service.List | src/reservations/reservations.service.js:3-19 | with a date the result is ordered by time and is a permutation of the stored rows on that date |
| Service.ListExactly | src/reservations/reservations.service.js:3-19 | with a date: exactly the stored rows on that date; with no date but a phone prefix: exactly the stored rows whose number starts with it; with neither: every stored row |
| Service.ListNoDuplicates | src/reservations/reservations.service.js:11-18 | the prefix and unfiltered listings hold each row once, in increasing id order |
| Controller.List | src/reservations/reservations.controller.js:7-18 | answers 200 with exactly the service's rows whose status is not "finished" |
| Controller.ListByDate | src/reservations/reservations.controller.js:7-18 | with a date: exactly the stored unfinished rows on that date, ordered by time |
| Controller.ListKeepsOrder | src/reservations/reservations.controller.js:13-15 | dropping finished rows only leaves rows out: the listing is a subsequence of the service's rows, in their order |
| Controller.StoreCheck | src/reservations/reservations.service.js:21-38 | the database accepts an insert or update exactly when every key it names is a column of the table; otherwise it refuses with a 500 |
| Controller.Booked | src/reservations/reservations.controller.js:156-158 | create sends the body's properties with `status` set to "booked", and names an unknown column exactly when the body does |
| Controller.Create | src/reservations/reservations.controller.js:155-161 | succeeds iff data is present, the body is acceptable, the schedule allows it and every key of `data` is a column; the stored row has status "booked" whatever the body said, a fresh id, and the six required fields from the body; nothing else changes; failures write nothing; the store invariant is kept; a `reservation_id` in the supplied fields is ignored (see Left out) |
| Controller.Read | src/reservations/reservations.controller.js:253 | answers 200 with the stored row exactly when the lookup finds it, 404 otherwise |
| Controller.ReadAfterCreate | src/reservations/reservations.controller.js:167-181 | reading the id a successful create returned gives the created row |
| Controller.Update | src/reservations/reservations.controller.js:236-243 | succeeds iff data is present, the id is stored, the body is acceptable, the schedule allows it and every key of `data` is a column; then the store is the service update of that row with the body's fields; failures write nothing; the store invariant is kept; a `reservation_id` in the supplied fields is ignored (see Left out) |
| Controller.UpdateStatus | src/reservations/reservations.controller.js:227-231 | succeeds iff data is present, the id is stored and the status check passes; then the status is one of the four, is echoed back, and is the only thing written |
| Controller.Spread | src/reservations/reservations.service.js:36 | `{ ...v }`: an object gives its own properties; a string of length n gives exactly the keys "0" … "n-1", key j holding the j-th character; an array gives its elements under their decimal indices in the same way; anything else gives no keys |
| Controller.Indexed | src/reservations/reservations.service.js:36 | the keys are exactly the decimal indices from i on, each holding the element at that index |
| Controller.UpdateStatusAsWritten | src/reservations/reservations.controller.js:227-231 | a request the checks refuse gets the same error as the corrected route; a success would answer what the corrected route answers; any failure writes nothing |
| Controller.AsWrittenAlwaysFails | src/reservations/reservations.controller.js:228 | as written, every status request fails and writes nothing; where the corrected route answers 200, the as-written route answers the database's 500 |
| Controller.CorrectedStoresStatus | src/reservations/reservations.service.js:40-44 | in a valid store, the corrected route stores the requested status on the reservation, while the as-written route leaves the store as it was |
| RouteProperties.CreateIsFailFast | src/reservations/reservations.controller.js:247-252 | POST answers the first failure of validateData, validateBody, validateDate and the database's insert, in that order |
| RouteProperties.UpdateIsFailFast | src/reservations/reservations.controller.js:254-260 | PUT answers the first failure of validateData, validateReservation, validateBody, validateDate and the database's update, in that order |
| RouteProperties.UnknownColumnRefused | src/reservations/reservations.service.js:21-38 | a body that passes every check but has a key naming no column makes create, and a full update of a stored reservation, answer 500 and write nothing |
| RouteProperties.UpdateStatusIsFailFast | src/reservations/reservations.controller.js:261-266 | the status route answers the first failure of validateData, validateReservation, validateUpdateStatus in that order |
| RouteProperties.MissingDataWins | src/reservations/reservations.controller.js:245-266 | without data every writing route answers 400 missing-body, even for an unknown id, and writes nothing |
| RouteProperties.ShadowedHasOwnPropertyFails | src/reservations/reservations.controller.js:47-48 | a `data` with its own `hasOwnProperty` makes create, and a full update of a stored reservation, answer the 500 TypeError and write nothing |
| RouteProperties.UnknownIdWins | src/reservations/reservations.controller.js:253-266 | with data present, an unknown id answers 404 on read, update and status update whatever the body holds |
| RouteProperties.FinishedIsFrozen | src/reservations/reservations.controller.js:207-212 | a finished reservation refuses every one of the four target statuses with 400 and nothing is written |
| RouteProperties.UnfinishedTakesAnyKnownStatus | src/reservations/reservations.controller.js:195-214 | a reservation that is not finished accepts any of the four statuses (booked after cancelled included); only its status changes |
| RouteProperties.FinishedCanBeEdited | src/reservations/reservations.controller.js:254-260 | the full update rewrites a finished reservation whose body passes the checks and names only columns |
| RouteProperties.UpdateCanStoreFalsyStatus | src/reservations/reservations.controller.js:84 | a successful full update whose body has status `""` stores `""` as the status, which is not a known status |
| RouteProperties.CreateKeepsStatusesKnown | src/reservations/reservations.controller.js:155-158 | creating keeps every stored status one of the four |
| RouteProperties.UpdateStatusKeepsStatusesKnown | src/reservations/reservations.controller.js:195-205 | the status route keeps every stored status one of the four |
| RouteProperties.UpdateKeepsStatusesKnown | src/reservations/reservations.controller.js:84-89 | the full update keeps every stored status one of the four unless the body carries a falsy status of its own |
| Text.ParseIntText | src/reservations/reservations.controller.js:169 | reading the decimal text of an id gives back the id |

## Left out

- Tables (`src/tables/*`), `src/app.js` bootstrapping and `src/errors/methodNotAllowed.js` are transport or pass-through code, so they are not modelled.
- Date parsing and time zones: `Date.parse` and `new Date` are not modelled. A `Calendar.Clock` supplies whether the text parses, the resulting UTC weekday, local hour and minute, and the instant, along with `now`. Their mutual consistency is not modelled.
- Validators.ValidateReservation: the model reads the route parameter only as plain decimal digits and answers 404 for every other parameter. The program reads it with `Number(...)`, so forms such as `"0x1"`, `" 1"`, `"1e0"`, `"+1"` and `"1.0"` find row 1. What the program answers for a parameter that reads as NaN, as a fraction or as a number beyond the id column's range depends on the database, and is not modelled.
- Query parameters are modelled as an optional string; repeated parameters, which Express turns into arrays, are not.
- `LIKE` wildcards (`%`, `_`) inside the phone number: the model uses a plain prefix match.
- Service.Patch: keys that name no column are ignored. Every route first puts its fields through `Controller.StoreCheck`, which refuses them with a 500, so no route relies on this. A supplied `reservation_id` is not written; see the next four lines.
- Service.Create: a `reservation_id` among the supplied fields is ignored, and the row always gets the sequence's next id. The program's insert stores the row under the supplied id and leaves the sequence where it was. It is refused with a 500 when that id is taken or is not an integer the column accepts. A later insert without an id can then draw the taken id from the sequence and be refused too. Modelling this would drop the store invariant that every id lies below the sequence's next value, on which the freshness and listing results rest.
- Service.Update: a `reservation_id` among the supplied fields is ignored, and the row stays under its id. The program's update moves the row to the supplied id, so the old id then finds nothing. It is refused with a 500 when that id is taken or is not an integer the column accepts.
- Controller.Create: with `reservation_id` in `data`, the model answers 201 with the sequence's next id, as `Service.Create` does. The program stores the supplied id or answers 500, as the line above describes.
- Controller.Update: with `reservation_id` in `data`, the model keeps the row under the id in the path. The program moves it to the supplied id, so a later read of the old path answers 404, or it answers 500, as `Service.Update` above describes.
- Service.NamesUnknownColumn: the table's columns are taken to be the seven business columns and `reservation_id`. The migrations that define the table are not part of this model, so a key naming some other real column, such as a timestamp column, counts as unknown here.
- Column types: the database's coercion of JSON values into text, date, time and integer columns is not modelled. Rows hold the JSON values as written.
- Service.List: the unordered SQL queries (prefix and everything) are returned in id order. Times are ordered as text, which matches time order for the fixed-width `HH:MM` forms.
- Storage failures other than an insert or update naming unknown columns, async scheduling and cross-request concurrency are not modelled; none is handled by the code.
- The error handler (`src/errors/errorHandler.js`) and `asyncErrorBoundary` are not part of this model. An error without a status (the TypeError, a database error) is taken to reach the client as a 500.
- Errors.Message: the text of a database refusal is the database's own and is modelled as the empty string; the TypeError's text is V8's.
- Controller.Spread: JavaScript spreads a string by UTF-16 code unit; the model spreads it by Dafny character, which differs only for characters outside the Basic Multilingual Plane.
- Json.NumberText: a non-integral number quoted in a status error message renders as the empty string. JavaScript's number-to-text conversion is not modelled.
- NaN has no constructor, since a JSON body cannot carry it.
- Reading twice without writes gives the same answer because `Controller.Read` is a function; no separate lemma states this.

## Findings

| source | as written | input that shows it | evidently intended | confidence | as-written member | corrected member |
|---|---|---|---|---|---|---|
| src/reservations/reservations.controller.js:228 | the status handler passes the bare status text to the general `service.update`, which spreads it into fields "0", "1", ... None of these is a column, so the database refuses the update: the request fails with a 500 and the status is not written. | PUT /reservations/1/status with `{ "data": { "status": "seated" } }` on a booked reservation | write only the status, as `service.updateStatus` (reservations.service.js:40-44) does | not executed; high | Controller.UpdateStatusAsWritten | Controller.UpdateStatus |

=== FILE: calendar.dfy ===
/**
  What the schedule checks learn from JavaScript's `Date`: the instant the
  reservation denotes, its UTC day of the week, and its hour and minute. The
  string grammar of `Date.parse` / `new Date` and time zones are not modelled;
  a `Clock` supplies these facts, together with the current instant.
*/
module Calendar {
  import opened Options
  import opened Json

  /** A valid `Date`: milliseconds since the epoch, `getUTCDay()`, `getHours()`
      and `getMinutes()`. */
  datatype Moment = Moment(instant: int, utcWeekday: int, hour: int, minute: int)

  predicate WellFormed(m: Moment)
  {
    0 <= m.utcWeekday < 7 && 0 <= m.hour < 24 && 0 <= m.minute < 60
  }

  /** Minutes since midnight, the quantity the opening hours bound. */
  function MinuteOfDay(m: Moment): int
  {
    m.hour * 60 + m.minute
  }

  const Tuesday := 2
  /** 10:30, 22:30 and 21:30 as minutes since midnight. */
  const Opening := 10 * 60 + 30
  const Closing := 22 * 60 + 30
  const LastBooking := Closing - 60

  /**
    `now` is the current instant when the request arrives.
    `parses(date, time)` says whether the date and time, joined by a space, make
    a parseable date.
    `moment(date, time)` is the date built from the date, a "T", the time and
    ":00.000", or None when that is not a valid date.
  */
  datatype Clock = Clock(
    now: int,
    parses: (Value, Value) -> bool,
    moment: (Value, Value) -> Option<Moment>)
}

=== FILE: controller.dfy ===
/**
  The reservation route handlers and the order in which each route runs its
  checks. A pipeline runs its checks one after the other and stops at the first
  failure; only when all pass does its handler touch the store.
*/
module Controller {
  import opened Options
  import opened Json
  import opened Errors
  import opened Calendar
  import opened Validators
  import Service
  import Text

  /** What a successful handler sends under `data`. */
  datatype Payload =
    | Rows(rows: seq<Service.Reservation>)
    | Row(row: Service.Reservation)
    | StatusEcho(status: Value)

  datatype Reply = Reply(code: int, data: Payload)

  /** The outcome of a request and the store after it. */
  datatype Exchange = Exchange(outcome: Result<Reply>, store: Service.Store)

  /** The `date` and `mobile_number` query-string parameters. */
  datatype Query = Query(date: Option<string>, mobile_number: Option<string>)

  const Created := 201
  const Success := 200

  /** Stored rows hold what the checks let in: required text columns are not "",
      `people` is a number from 1 up, and the status is one of the four known
      values or a falsy value. */
  predicate WellFormedRow(r: Service.Reservation)
  {
    && r.first_name != Str("")
    && r.last_name != Str("")
    && r.mobile_number != Str("")
    && r.reservation_date != Str("")
    && r.reservation_time != Str("")
    && PeopleAcceptable(r.people)
    && (IsKnownStatus(r.status) || !Truthy(r.status))
  }

  predicate WellFormedStore(st: Service.Store)
  {
    Service.Valid(st) && forall k :: k in st.rows ==> WellFormedRow(st.rows[k])
  }

  // ---------------------------------------------------------------------------
  // list

  /** GET /reservations: the service's rows without the finished ones. */
  function List(st: Service.Store, q: Query): (r: Reply)
    ensures r.code == Success && r.data.Rows?
    ensures forall x :: x in r.data.rows <==>
      x in Service.List(st, q.date, q.mobile_number) && x.status != Str("finished")
    ensures |r.data.rows| <= |Service.List(st, q.date, q.mobile_number)|
  {
    Reply(Success, Rows(Service.Filter(Service.List(st, q.date, q.mobile_number), Service.NotFinished)))
  }

  lemma {:induction false} FilterKeepsSorted(xs: seq<Service.Reservation>, w: Service.Where)
    requires Service.SortedByTime(xs)
    ensures Service.SortedByTime(Service.Filter(xs, w))
  {
    if |xs| > 1 {
      FilterKeepsSorted(xs[1..], w);
      var rest := Service.Filter(xs[1..], w);
      if Service.Matches(w, xs[0]) && |rest| > 0 {
        assert rest[0] in xs[1..];
        var j :| 1 <= j < |xs| && xs[j] == rest[0];
        SortedPrefixLeq(xs, j);
      }
    }
  }

  lemma {:induction false} SortedPrefixLeq(xs: seq<Service.Reservation>, j: int)
    requires Service.SortedByTime(xs)
    requires 0 <= j < |xs|
    ensures Text.LexLeq(Service.TimeKey(xs[0]), Service.TimeKey(xs[j]))
  {
    if j == 0 {
      Text.LexLeqTotal(Service.TimeKey(xs[0]), Service.TimeKey(xs[0]));
    } else {
      SortedPrefixLeq(xs, j - 1);
      Text.LexLeqTransitive(Service.TimeKey(xs[0]), Service.TimeKey(xs[j - 1]), Service.TimeKey(xs[j]));
    }
  }

  /** With a date, the listing is exactly the stored unfinished rows on that
      date, ordered by time. */
  lemma ListByDate(st: Service.Store, q: Query)
    requires Service.Valid(st)
    requires Service.Given(q.date)
    ensures Service.SortedByTime(List(st, q).data.rows)
    ensures forall x :: x in List(st, q).data.rows <==>
      Service.Stored(st, x) && x.reservation_date == Str(q.date.value) && x.status != Str("finished")
  {
    Service.ListExactly(st, q.date, q.mobile_number);
    FilterKeepsSorted(Service.List(st, q.date, q.mobile_number), Service.NotFinished);
  }

  /** `ys` is `xs` with some elements left out and the rest in their order. */
  predicate Subsequence(ys: seq<Service.Reservation>, xs: seq<Service.Reservation>)
    decreases |xs|
  {
    if |ys| == 0 then true
    else if |xs| == 0 then false
    else if ys[0] == xs[0] then Subsequence(ys[1..], xs[1..])
    else Subsequence(ys, xs[1..])
  }

  /** Dropping finished rows only leaves rows out: what remains is a
      subsequence of the service's rows, in their order. */
  lemma {:induction false} ListKeepsOrder(xs: seq<Service.Reservation>)
    ensures Subsequence(Service.Filter(xs, Service.NotFinished), xs)
  {
    if |xs| > 0 {
      var rest := Service.Filter(xs[1..], Service.NotFinished);
      ListKeepsOrder(xs[1..]);
      if Service.Matches(Service.NotFinished, xs[0]) {
        assert Service.Filter(xs, Service.NotFinished) == [xs[0]] + rest;
        assert ([xs[0]] + rest)[1..] == rest;
      } else {
        assert Service.Filter(xs, Service.NotFinished) == rest;
        if |rest| > 0 {
          assert rest[0] in rest;
        }
      }
    }
  }

  // ---------------------------------------------------------------------------
  // create: validateData, validateBody, validateDate, create

  /** `validateDate` applied to the body's date and time. */
  function DateCheck(data: Value, clock: Clock): (c: Check)
    ensures c.Fail? ==> c.error.status == BadRequest
    ensures var at := clock.moment(Property(data, "reservation_date"), Property(data, "reservation_time"));
      && (at.None? ==> c == Pass)
      && (at.Some? && WellFormed(at.value) ==>
            (c == Pass <==>
               && at.value.utcWeekday != Tuesday
               && at.value.instant >= clock.now
               && Opening <= MinuteOfDay(at.value) <= LastBooking))
  {
    ValidateDate(clock.moment(Property(data, "reservation_date"), Property(data, "reservation_time")), clock.now)
  }

  /** The properties of `data` as the object sent to the database; a value that
      is not an object sends none. */
  function Fields(data: Value): (m: map<string, Value>)
    ensures data.Obj? ==> m == data.fields
    ensures !data.Obj? ==> m == map[]
  {
    if data.Obj? then data.fields else map[]
  }

  /** The database's verdict on the columns an insert or update names: one the
      table does not have makes it refuse the whole statement, which reaches the
      client as a 500. */
  function StoreCheck(fields: map<string, Value>): (c: Check)
    ensures c == Pass <==> !Service.NamesUnknownColumn(fields)
    ensures c.Fail? ==> c.error == Error(ServerError, StoreRejected)
  {
    if Service.NamesUnknownColumn(fields) then Fail(Error(ServerError, StoreRejected)) else Pass
  }

  /** Setting a column does not change whether the other keys name columns. */
  lemma SetColumnKeepsVerdict(fields: map<string, Value>, c: string, v: Value)
    requires c in Service.Columns
    ensures Service.NamesUnknownColumn(fields[c := v]) <==> Service.NamesUnknownColumn(fields)
  {
    if Service.NamesUnknownColumn(fields) {
      var k :| k in fields && k !in Service.Columns && k != "reservation_id";
      assert k in fields[c := v];
    }
  }

  /** What create sends: the body's data with its status set to "booked". */
  function Booked(data: Value): (m: map<string, Value>)
    ensures m.Keys == Fields(data).Keys + {"status"}
    ensures m["status"] == Str("booked")
    ensures forall k :: k in Fields(data) && k != "status" ==> m[k] == Fields(data)[k]
    ensures Service.NamesUnknownColumn(m) <==> Service.NamesUnknownColumn(Fields(data))
  {
    SetColumnKeepsVerdict(Fields(data), "status", Str("booked"));
    Fields(data)["status" := Str("booked")]
  }

  /** POST /reservations. */
  function Create(st: Service.Store, clock: Clock, body: Value): (x: Exchange)
    ensures x.outcome.Err? ==> x.store == st
    ensures x.outcome.Ok? <==>
      var data := Data(body);
      && Truthy(data) && BodyAcceptable(data, clock) && DateCheck(data, clock) == Pass
      && !Service.NamesUnknownColumn(Fields(data))
    ensures x.outcome.Ok? ==>
      && x.outcome.value.code == Created
      && x.outcome.value.data.Row?
      && var row := x.outcome.value.data.row;
      && row.status == Str("booked")
      && row.reservation_id == st.nextId
      && x.store.rows == st.rows[row.reservation_id := row]
      && forall f :: f in RequiredFields ==> Service.Column(row, f) == Property(Data(body), f)
    ensures Service.Valid(st) && x.outcome.Ok? ==> x.outcome.value.data.row.reservation_id !in st.rows
    ensures WellFormedStore(st) ==> WellFormedStore(x.store)
  {
    var data := Data(body);
    match ValidateData(body)
    case Fail(e) => Exchange(Err(e), st)
    case Pass =>
      match ValidateBody(data, clock)
      case Fail(e) => Exchange(Err(e), st)
      case Pass =>
        match DateCheck(data, clock)
        case Fail(e) => Exchange(Err(e), st)
        case Pass =>
          match StoreCheck(Booked(data))
          case Fail(e) => Exchange(Err(e), st)
          case Pass =>
            var (row, st') := Service.Create(st, Booked(data));
            assert forall f :: f in RequiredFields ==> f in Service.Columns && f != "status";
            Exchange(Ok(Reply(Created, Row(row))), st')
  }

  // ---------------------------------------------------------------------------
  // read: validateReservation, read

  /** GET /reservations/:reservation_id. */
  function Read(st: Service.Store, idText: string): (r: Result<Reply>)
    ensures r.Ok? <==> ValidateReservation(st, idText).Ok?
    ensures r.Ok? ==> r.value == Reply(Success, Row(ValidateReservation(st, idText).value))
    ensures r.Err? ==> r.error.status == NotFound
  {
    match ValidateReservation(st, idText)
    case Err(e) => Err(e)
    case Ok(row) => Ok(Reply(Success, Row(row)))
  }

  /** Reading a reservation just created returns the row that was stored. */
  lemma ReadAfterCreate(st: Service.Store, clock: Clock, body: Value)
    requires Service.Valid(st)
    ensures var x := Create(st, clock, body);
      x.outcome.Ok? ==>
        Read(x.store, Text.IntText(st.nextId)) == Ok(Reply(Success, Row(x.outcome.value.data.row)))
  {
    var x := Create(st, clock, body);
    if x.outcome.Ok? {
      FindsStoredReservation(x.store, st.nextId);
    }
  }

  // ---------------------------------------------------------------------------
  // update: validateData, validateReservation, validateBody, validateDate, update

  /** PUT /reservations/:reservation_id. */
  function Update(st: Service.Store, clock: Clock, idText: string, body: Value): (x: Exchange)
    ensures x.outcome.Err? ==> x.store == st
    ensures x.outcome.Ok? <==>
      var data := Data(body);
      && Truthy(data)
      && ValidateReservation(st, idText).Ok?
      && BodyAcceptable(data, clock)
      && DateCheck(data, clock) == Pass
      && !Service.NamesUnknownColumn(Fields(data))
    ensures x.outcome.Ok? ==>
      && ValidateReservation(st, idText).Ok?
      && Data(body).Obj?
      && var id := ValidateReservation(st, idText).value.reservation_id;
      && var (rows, st') := Service.Update(st, id, Data(body).fields);
      && x.outcome.value == Reply(Success, Rows(rows))
      && x.store == st'
    ensures WellFormedStore(st) ==> WellFormedStore(x.store)
  {
    var data := Data(body);
    match ValidateData(body)
    case Fail(e) => Exchange(Err(e), st)
    case Pass =>
      match ValidateReservation(st, idText)
      case Err(e) => Exchange(Err(e), st)
      case Ok(row) =>
        match ValidateBody(data, clock)
        case Fail(e) => Exchange(Err(e), st)
        case Pass =>
          match DateCheck(data, clock)
          case Fail(e) => Exchange(Err(e), st)
          case Pass =>
            match StoreCheck(Fields(data))
            case Fail(e) => Exchange(Err(e), st)
            case Pass =>
              var (rows, st') := Service.Update(st, row.reservation_id, data.fields);
              PatchKeepsWellFormed(st, row.reservation_id, data, clock);
              Exchange(Ok(Reply(Success, Rows(rows))), st')
  }

  lemma PatchedRowWellFormed(r: Service.Reservation, data: Value, clock: Clock)
    requires WellFormedRow(r)
    requires BodyAcceptable(data, clock)
    ensures data.Obj? && WellFormedRow(Service.Patch(r, data.fields))
  {
    assert Supplied(data, "first_name") by { assert "first_name" == RequiredFields[0]; }
    assert Supplied(data, "last_name") by { assert "last_name" == RequiredFields[1]; }
    assert Supplied(data, "mobile_number") by { assert "mobile_number" == RequiredFields[2]; }
    assert Supplied(data, "reservation_date") by { assert "reservation_date" == RequiredFields[3]; }
    assert Supplied(data, "reservation_time") by { assert "reservation_time" == RequiredFields[4]; }
    assert Supplied(data, "people") by { assert "people" == RequiredFields[5]; }
  }

  lemma PatchKeepsWellFormed(st: Service.Store, id: int, data: Value, clock: Clock)
    requires BodyAcceptable(data, clock)
    ensures data.Obj?
    ensures WellFormedStore(st) ==> WellFormedStore(Service.Update(st, id, data.fields).1)
  {
    assert Supplied(data, "first_name") by { assert "first_name" == RequiredFields[0]; }
    if WellFormedStore(st) && id in st.rows {
      PatchedRowWellFormed(st.rows[id], data, clock);
    }
  }

  // ---------------------------------------------------------------------------
  // updateStatus: validateData, validateReservation, validateUpdateStatus, updateStatus

  /** PUT /reservations/:reservation_id/status, writing the status only. */
  function UpdateStatus(st: Service.Store, idText: string, body: Value): (x: Exchange)
    ensures x.outcome.Err? ==> x.store == st
    ensures x.outcome.Ok? <==>
      && Truthy(Data(body))
      && ValidateReservation(st, idText).Ok?
      && ValidateUpdateStatus(Data(body), ValidateReservation(st, idText).value) == Pass
    ensures x.outcome.Ok? ==>
      var status := Property(Data(body), "status");
      && IsKnownStatus(status)
      && x.outcome.value == Reply(Success, StatusEcho(status))
      && x.store == Service.UpdateStatus(st, ValidateReservation(st, idText).value.reservation_id, status)
    ensures WellFormedStore(st) ==> WellFormedStore(x.store)
  {
    var data := Data(body);
    match ValidateData(body)
    case Fail(e) => Exchange(Err(e), st)
    case Pass =>
      match ValidateReservation(st, idText)
      case Err(e) => Exchange(Err(e), st)
      case Ok(row) =>
        match ValidateUpdateStatus(data, row)
        case Fail(e) => Exchange(Err(e), st)
        case Pass =>
          var status := Property(data, "status");
          Exchange(Ok(Reply(Success, StatusEcho(status))), Service.UpdateStatus(st, row.reservation_id, status))
  }

  // ---------------------------------------------------------------------------
  // The status handler as written, passing the bare status to the general update

  /** Spreading a value into a new object: an object gives its
      own properties; a string gives one property per character and an array one
      per element, keyed by the index written in decimal; anything else gives
      none. */
  function Spread(v: Value): (m: map<string, Value>)
    ensures v.Obj? ==> m == v.fields
    ensures v.Str? ==> m.Keys == Numerals(0, |v.s|)
    ensures v.Str? ==> forall j :: 0 <= j < |v.s| ==> Text.IntText(j) in m && m[Text.IntText(j)] == Str([v.s[j]])
    ensures v.Arr? ==> m.Keys == Numerals(0, |v.items|)
    ensures v.Arr? ==> forall j :: 0 <= j < |v.items| ==> Text.IntText(j) in m && m[Text.IntText(j)] == v.items[j]
    ensures !v.Obj? && !v.Str? && !v.Arr? ==> m == map[]
  {
    match v
    case Obj(fields) => fields
    case Str(s) => Indexed(Characters(s), 0)
    case Arr(items) => Indexed(items, 0)
    case _ => map[]
  }

  /** The characters of a text, each as a one-character string. */
  function Characters(s: string): (cs: seq<Value>)
    ensures |cs| == |s|
    ensures forall j :: 0 <= j < |s| ==> cs[j] == Str([s[j]])
  {
    seq(|s|, j requires 0 <= j < |s| => Str([s[j]]))
  }

  /** The decimal texts of the indices `lo` up to, not including, `hi`. */
  function Numerals(lo: nat, hi: nat): set<string>
  {
    set j | lo <= j < hi :: Text.IntText(j)
  }

  lemma NumeralsStep(lo: nat, hi: nat)
    requires lo < hi
    ensures Numerals(lo, hi) == Numerals(lo + 1, hi) + {Text.IntText(lo)}
  {
    forall k | k in Numerals(lo, hi)
      ensures k in Numerals(lo + 1, hi) + {Text.IntText(lo)}
    {
      var j :| lo <= j < hi && k == Text.IntText(j);
      if j > lo {
        assert k in Numerals(lo + 1, hi);
      }
    }
  }

  /** The elements of `vs` from index `i` on, keyed by their decimal index. */
  function Indexed(vs: seq<Value>, i: nat): (m: map<string, Value>)
    requires i <= |vs|
    ensures m.Keys == Numerals(i, |vs|)
    ensures forall j :: i <= j < |vs| ==> Text.IntText(j) in m && m[Text.IntText(j)] == vs[j]
    decreases |vs| - i
  {
    if i == |vs| then map[]
    else
      var rest := Indexed(vs, i + 1);
      assert forall j :: i < j < |vs| ==> Text.IntText(j) != Text.IntText(i) by {
        forall j | i < j < |vs| && Text.IntText(j) == Text.IntText(i) {
          Text.IntTextInjective(j, i);
        }
      }
      var m := rest[Text.IntText(i) := vs[i]];
      NumeralsStep(i, |vs|);
      m
  }

  /** The status handler passing the bare status text to the general update:
      the text is spread into per-character fields "0", "1", ..., and the
      database refuses an update naming columns the table does not have. */
  function UpdateStatusAsWritten(st: Service.Store, idText: string, body: Value): (x: Exchange)
    ensures x.outcome.Err? ==> x.store == st
    ensures UpdateStatus(st, idText, body).outcome.Err? ==> x == UpdateStatus(st, idText, body)
    ensures x.outcome.Ok? ==> x.outcome == UpdateStatus(st, idText, body).outcome
  {
    var data := Data(body);
    match ValidateData(body)
    case Fail(e) => Exchange(Err(e), st)
    case Pass =>
      match ValidateReservation(st, idText)
      case Err(e) => Exchange(Err(e), st)
      case Ok(row) =>
        match ValidateUpdateStatus(data, row)
        case Fail(e) => Exchange(Err(e), st)
        case Pass =>
          var status := Property(data, "status");
          var fields := Spread(status);
          match StoreCheck(fields)
          case Fail(e) => Exchange(Err(e), st)
          case Pass =>
            var (_, st') := Service.Update(st, row.reservation_id, fields);
            Exchange(Ok(Reply(Success, StatusEcho(status))), st')
  }

  /** No column of the table is named by a decimal numeral. */
  lemma ColumnsAreNotNumerals()
    ensures forall c :: c in Service.Columns ==> |c| > 0 && !Text.IsDigit(c[0])
    ensures !Text.IsDigit("reservation_id"[0])
  {
  }

  /** Spreading a non-empty text names the unknown column "0". */
  lemma SpreadTextNamesUnknownColumn(s: string)
    requires |s| > 0
    ensures Service.NamesUnknownColumn(Spread(Str(s)))
  {
    var k := Text.IntText(0);
    assert k in Spread(Str(s));
    ColumnsAreNotNumerals();
    assert Text.IsDigit(k[0]);
  }

  /** As written, every status update fails and writes nothing: a request the
      checks refuse gets the same error as the corrected route, and one they let
      through is refused by the database with a 500, where the corrected route
      answers 200 and stores the new status. */
  lemma {:induction false} AsWrittenAlwaysFails(st: Service.Store, idText: string, body: Value)
    ensures UpdateStatusAsWritten(st, idText, body).outcome.Err?
    ensures UpdateStatusAsWritten(st, idText, body).store == st
    ensures UpdateStatus(st, idText, body).outcome.Ok? ==>
      && UpdateStatusAsWritten(st, idText, body).outcome == Err(Error(ServerError, StoreRejected))
      && UpdateStatus(st, idText, body).outcome.value.code == Success
  {
    var data := Data(body);
    var status := Property(data, "status");
    if ValidateData(body) == Pass && ValidateReservation(st, idText).Ok? {
      var row := ValidateReservation(st, idText).value;
      if ValidateUpdateStatus(data, row) == Pass {
        assert status.Str? && status.s in KnownStatuses;
        assert |status.s| > 0;
        SpreadTextNamesUnknownColumn(status.s);
      }
    }
  }

  /** The corrected route stores the requested status on the reservation and
      changes no other row, where the as-written route changes nothing. */
  lemma CorrectedStoresStatus(st: Service.Store, idText: string, body: Value)
    requires Service.Valid(st)
    requires UpdateStatus(st, idText, body).outcome.Ok?
    ensures var id := Text.ParseDecimal(idText).value;
      && id in UpdateStatus(st, idText, body).store.rows
      && UpdateStatus(st, idText, body).store.rows[id].status == Property(Data(body), "status")
      && UpdateStatusAsWritten(st, idText, body).store == st
  {
    var id := Text.ParseDecimal(idText).value;
    assert ValidateReservation(st, idText).value.reservation_id == id;
    AsWrittenAlwaysFails(st, idText, body);
  }
}

=== FILE: errors.dfy ===
/**
  The errors the reservation checks hand to the error handler. Each is an HTTP
  status paired with a reason; `Message` gives the text the response carries
  under `error`.
*/
module Errors {
  import opened Json

  datatype Reason =
    | MissingData
    | FieldRequired(field: string)
    | BadDateTime
    | PeopleNotNumber
    | PeopleBelowOne
    | StatusNotAllowed(status: Value)
    | ClosedTuesday
    | InPast
    | NotOpenYet
    | ClosedAfter
    | HourBeforeClosing
    | UnknownReservation(idText: string)
    | MissingStatus
    | FinishedFrozen
    | HasOwnPropertyShadowed
    | StoreRejected

  datatype Error = Error(status: int, reason: Reason)

  const BadRequest := 400
  const NotFound := 404
  /** The status the error handler gives an exception nobody turned into an error. */
  const ServerError := 500

  /** Outcome of one check in a chain: continue, or stop with an error. */
  datatype Check = Pass | Fail(error: Error)

  /** Outcome of a check that also produces a value (the looked-up reservation,
      the reply of a pipeline). */
  datatype Result<+T> = Ok(value: T) | Err(error: Error)

  /** A chain of checks run in order that stops at the first failure. */
  function FirstFailure(checks: seq<Check>): (c: Check)
    ensures c == Pass <==> forall i :: 0 <= i < |checks| ==> checks[i] == Pass
    ensures c.Fail? ==>
      exists i :: 0 <= i < |checks| && checks[i] == c && (forall j :: 0 <= j < i ==> checks[j] == Pass)
  {
    if |checks| == 0 then Pass
    else if checks[0].Fail? then checks[0]
    else
      var rest := FirstFailure(checks[1..]);
      assert forall i :: 1 <= i < |checks| ==> checks[i] == checks[1..][i - 1];
      rest
  }

  /** The chain `a, b, c, ...` answers `a`'s failure, or else what the rest answers. */
  lemma FirstFailureStep(a: Check, rest: seq<Check>)
    ensures FirstFailure([a] + rest) == if a.Fail? then a else FirstFailure(rest)
  {
  }

  /** A lookup seen as a check: it passes when it found something. */
  function AsCheck<T>(r: Result<T>): (c: Check)
    ensures c == Pass <==> r.Ok?
    ensures r.Err? ==> c == Fail(r.error)
  {
    match r
    case Ok(_) => Pass
    case Err(e) => Fail(e)
  }

  const FieldPrefix := "Field required: '"
  const IdPrefix := "reservation id "
  const IdSuffix := " does not exist"
  const StatusPrefix := "'status' field cannot be "

  /** The message text for each reason, spelling included. The text of a failure
      the database reports is the database's own and is not modelled. */
  function Message(r: Reason): (m: string)
    ensures r.FieldRequired? ==>
      && |m| == |FieldPrefix| + |r.field| + 1
      && m[..|FieldPrefix|] == FieldPrefix
      && m[|FieldPrefix|..|m| - 1] == r.field
      && m[|m| - 1] == '\''
    ensures r.StatusNotAllowed? ==>
      && |m| == |StatusPrefix| + |Render(r.status)|
      && m[..|StatusPrefix|] == StatusPrefix
      && m[|StatusPrefix|..] == Render(r.status)
    ensures r.UnknownReservation? ==>
      && |m| == |IdPrefix| + |r.idText| + |IdSuffix|
      && m[..|IdPrefix|] == IdPrefix
      && m[|IdPrefix|..|IdPrefix| + |r.idText|] == r.idText
      && m[|IdPrefix| + |r.idText|..] == IdSuffix
  {
    match r
    case MissingData => "Body must include a request body data object"
    case FieldRequired(f) => FieldPrefix + f + "'"
    case BadDateTime => "'reservation_date' or 'reservation_time' field are in incorrect format"
    case PeopleNotNumber => "'people' field must be a number"
    case PeopleBelowOne => "'people' filed must be at least 1"
    case StatusNotAllowed(v) => StatusPrefix + Render(v)
    case ClosedTuesday => "'reservation_date' field: restaurant is closed on tuesday"
    case InPast => "'reservation_date' and 'reservation_time' field must be in the future"
    case NotOpenYet => "'reservation_time; field: restaurant is not open until 10:30AM"
    case ClosedAfter => "'reservation_time' field: restaurant is closed after 10:30PM"
    case HourBeforeClosing =>
      "'reservation_time' field: reservation must be made at least an hour before closing (10:30PM)"
    case UnknownReservation(id) => IdPrefix + id + IdSuffix
    case MissingStatus => "body must include a status field"
    case FinishedFrozen => "a 'finished' reservation cannot be updated"
    case HasOwnPropertyShadowed => "req.body.data.hasOwnProperty is not a function"
    case StoreRejected => ""
  }

  /** A field-required message names exactly one field, so two of them agree
      only when they are about the same field. */
  lemma {:induction false} FieldMessageInjective(f: string, g: string)
    ensures Message(FieldRequired(f)) == Message(FieldRequired(g)) <==> f == g
  {
    if Message(FieldRequired(f)) == Message(FieldRequired(g)) {
      var m := Message(FieldRequired(f));
      assert f == m[|FieldPrefix|..|m| - 1] == g;
    }
  }
}

=== FILE: json.dfy ===
/**
  The JavaScript values a request body can carry once the JSON body parser has
  run, and the few JavaScript operations the reservation checks apply to them:
  truthiness, own-property lookup, strict equality (plain `==` here) and the
  text a template literal produces.
*/
module Json {
  import Text

  datatype Value =
    | Undefined
    | Null
    | Bool(b: bool)
    | Num(x: real)
    | Str(s: string)
    | Arr(items: seq<Value>)
    | Obj(fields: map<string, Value>)

  /** JavaScript truthiness: `undefined`, `null`, `false`, `0` and `""` are falsy.
      NaN is not a JSON value, so it has no constructor here. */
  predicate Truthy(v: Value)
  {
    match v
    case Undefined => false
    case Null => false
    case Bool(b) => b
    case Num(x) => x != 0.0
    case Str(s) => s != ""
    case Arr(_) => true
    case Obj(_) => true
  }

  /** `v.hasOwnProperty(key)` for the keys the checks ask about: only an object
      has own properties with these names. */
  predicate HasOwn(v: Value, key: string)
  {
    v.Obj? && key in v.fields
  }

  /** `v[key]`, which is `undefined` when the property is missing. */
  function Property(v: Value, key: string): (r: Value)
    ensures HasOwn(v, key) ==> r == v.fields[key]
    ensures !HasOwn(v, key) ==> r == Undefined
  {
    if HasOwn(v, key) then v.fields[key] else Undefined
  }

  /** The text `${v}` gives inside a template literal. */
  function Render(v: Value): string
  {
    match v
    case Undefined => "undefined"
    case Null => "null"
    case Bool(b) => if b then "true" else "false"
    case Num(x) => NumberText(x)
    case Str(s) => s
    case Arr(items) =>
      Join(seq(|items|, i requires 0 <= i < |items| =>
        if items[i].Undefined? || items[i].Null? then "" else Render(items[i])))
    case Obj(_) => "[object Object]"
  }

  /** `Array.prototype.join` with the default separator. */
  function Join(parts: seq<string>): string
  {
    if |parts| == 0 then ""
    else if |parts| == 1 then parts[0]
    else parts[0] + "," + Join(parts[1..])
  }

  /** Decimal text of an integral number; non-integral numbers render as "". */
  function NumberText(x: real): string
  {
    if x != x.Floor as real then ""
    else if x.Floor >= 0 then Text.IntText(x.Floor)
    else "-" + Text.IntText(-x.Floor)
  }
}

=== FILE: options.dfy ===
/** A value that a lookup may or may not produce: a stored row, a parsed id, a
    valid `Date`. */
module Options {

  datatype Option<+T> = None | Some(value: T)
}

=== FILE: route_properties.dfy ===
/**
  Properties of the reservation routes as a whole: which error wins when
  several checks would fail, what a successful request stores, and the store
  invariants every route keeps.
*/
module RouteProperties {
  import opened Json
  import opened Errors
  import opened Calendar
  import opened Validators
  import opened Controller
  import Service
  import Text

  /** The reservation lookup's verdict, and the status check against the row it found. */
  function StatusCheckFor(st: Service.Store, idText: string, data: Value): Check
  {
    match ValidateReservation(st, idText)
    case Ok(row) => ValidateUpdateStatus(data, row)
    case Err(_) => Pass
  }

  /** POST runs validateData, validateBody, validateDate in that order, then
      the insert, and answers with the first failure. */
  lemma CreateIsFailFast(st: Service.Store, clock: Clock, body: Value)
    ensures AsCheck(Create(st, clock, body).outcome) ==
      FirstFailure([ValidateData(body), ValidateBody(Data(body), clock), DateCheck(Data(body), clock),
                    StoreCheck(Booked(Data(body)))])
  {
    var a, b := ValidateData(body), ValidateBody(Data(body), clock);
    var c, d := DateCheck(Data(body), clock), StoreCheck(Booked(Data(body)));
    assert [a, b, c, d] == [a] + ([b] + ([c] + ([d] + [])));
    FirstFailureStep(a, [b, c, d]);
    FirstFailureStep(b, [c, d]);
    FirstFailureStep(c, [d]);
    FirstFailureStep(d, []);
  }

  /** PUT runs validateData, validateReservation, validateBody, validateDate in
      that order, then the update, and answers with the first failure. */
  lemma UpdateIsFailFast(st: Service.Store, clock: Clock, idText: string, body: Value)
    ensures AsCheck(Update(st, clock, idText, body).outcome) ==
      FirstFailure([ValidateData(body), AsCheck(ValidateReservation(st, idText)),
                    ValidateBody(Data(body), clock), DateCheck(Data(body), clock),
                    StoreCheck(Fields(Data(body)))])
  {
    var a, b := ValidateData(body), AsCheck(ValidateReservation(st, idText));
    var c, d := ValidateBody(Data(body), clock), DateCheck(Data(body), clock);
    var e := StoreCheck(Fields(Data(body)));
    assert [a, b, c, d, e] == [a] + ([b] + ([c] + ([d] + ([e] + []))));
    FirstFailureStep(a, [b, c, d, e]);
    FirstFailureStep(b, [c, d, e]);
    FirstFailureStep(c, [d, e]);
    FirstFailureStep(d, [e]);
    FirstFailureStep(e, []);
  }

  /** A body that passes every check but names a column the table does not have
      is refused by the database: create, and a full update of a stored
      reservation, answer 500 and write nothing. */
  lemma UnknownColumnRefused(st: Service.Store, clock: Clock, idText: string, body: Value)
    requires Truthy(Data(body)) && BodyAcceptable(Data(body), clock) && DateCheck(Data(body), clock) == Pass
    requires Service.NamesUnknownColumn(Fields(Data(body)))
    ensures Create(st, clock, body) == Exchange(Err(Error(ServerError, StoreRejected)), st)
    ensures ValidateReservation(st, idText).Ok? ==>
      Update(st, clock, idText, body) == Exchange(Err(Error(ServerError, StoreRejected)), st)
  {
  }

  /** The status route runs validateData, validateReservation,
      validateUpdateStatus in that order and answers with the first failure. */
  lemma UpdateStatusIsFailFast(st: Service.Store, idText: string, body: Value)
    ensures AsCheck(UpdateStatus(st, idText, body).outcome) ==
      FirstFailure([ValidateData(body), AsCheck(ValidateReservation(st, idText)),
                    StatusCheckFor(st, idText, Data(body))])
  {
    var a, b := ValidateData(body), AsCheck(ValidateReservation(st, idText));
    var c := StatusCheckFor(st, idText, Data(body));
    assert [a, b, c] == [a] + ([b] + ([c] + []));
    FirstFailureStep(a, [b, c]);
    FirstFailureStep(b, [c]);
    FirstFailureStep(c, []);
  }

  /** Without a data object every writing route answers 400, even for an
      unknown id, and the store is untouched. */
  lemma MissingDataWins(st: Service.Store, clock: Clock, idText: string, body: Value)
    requires !Truthy(Data(body))
    ensures Create(st, clock, body) == Exchange(Err(Error(BadRequest, MissingData)), st)
    ensures Update(st, clock, idText, body) == Exchange(Err(Error(BadRequest, MissingData)), st)
    ensures UpdateStatus(st, idText, body) == Exchange(Err(Error(BadRequest, MissingData)), st)
  {
  }

  /** A data object with its own "hasOwnProperty" makes create fail with a 500,
      whatever else it holds, and makes a full update of a known reservation do
      the same. */
  lemma ShadowedHasOwnPropertyFails(st: Service.Store, clock: Clock, idText: string, body: Value)
    requires ShadowsHasOwnProperty(Data(body))
    ensures Create(st, clock, body) == Exchange(Err(Error(ServerError, HasOwnPropertyShadowed)), st)
    ensures ValidateReservation(st, idText).Ok? ==>
      Update(st, clock, idText, body) == Exchange(Err(Error(ServerError, HasOwnPropertyShadowed)), st)
  {
  }

  /** With a data object, an unknown id answers 404 before anything in the body
      is examined. */
  lemma UnknownIdWins(st: Service.Store, clock: Clock, idText: string, body: Value)
    requires Truthy(Data(body))
    requires Text.ParseDecimal(idText).None? || Text.ParseDecimal(idText).value !in st.rows
    ensures Update(st, clock, idText, body) == Exchange(Err(Error(NotFound, UnknownReservation(idText))), st)
    ensures UpdateStatus(st, idText, body) == Exchange(Err(Error(NotFound, UnknownReservation(idText))), st)
    ensures Read(st, idText) == Err(Error(NotFound, UnknownReservation(idText)))
  {
  }

  /** A finished reservation refuses every status change, whichever of the four
      statuses is asked for, and nothing is written. */
  lemma FinishedIsFrozen(st: Service.Store, id: nat, body: Value, target: string)
    requires id in st.rows && st.rows[id].status == Str("finished")
    requires Truthy(Data(body))
    requires target in KnownStatuses && Property(Data(body), "status") == Str(target)
    ensures UpdateStatus(st, Text.IntText(id), body) == Exchange(Err(Error(BadRequest, FinishedFrozen)), st)
  {
    FindsStoredReservation(st, id);
  }

  /** A reservation that is not finished takes any of the four statuses, booked
      after cancelled included; only the status of that row changes. */
  lemma UnfinishedTakesAnyKnownStatus(st: Service.Store, id: nat, body: Value)
    requires Service.Valid(st)
    requires id in st.rows && st.rows[id].status != Str("finished")
    requires Truthy(Data(body)) && IsKnownStatus(Property(Data(body), "status"))
    ensures var x := UpdateStatus(st, Text.IntText(id), body);
      && x.outcome == Ok(Reply(Success, StatusEcho(Property(Data(body), "status"))))
      && x.store.rows.Keys == st.rows.Keys
      && x.store.rows[id] == st.rows[id].(status := Property(Data(body), "status"))
      && forall k :: k in st.rows && k != id ==> x.store.rows[k] == st.rows[k]
  {
    FindsStoredReservation(st, id);
  }

  /** The full update has no finished check: a finished reservation whose new
      body passes the checks is rewritten, status included when the body has one. */
  lemma FinishedCanBeEdited(st: Service.Store, clock: Clock, id: nat, body: Value)
    requires Service.Valid(st)
    requires id in st.rows && st.rows[id].status == Str("finished")
    requires Truthy(Data(body)) && BodyAcceptable(Data(body), clock) && DateCheck(Data(body), clock) == Pass
    requires !Service.NamesUnknownColumn(Fields(Data(body)))
    ensures var x := Update(st, clock, Text.IntText(id), body);
      && x.outcome.Ok?
      && Data(body).Obj?
      && x.store.rows[id] == Service.Patch(st.rows[id], Data(body).fields)
  {
    FindsStoredReservation(st, id);
    PatchKeepsWellFormed(st, id, Data(body), clock);
  }

  /** A full update whose body carries a falsy status (such as "") gets past the
      status check, and the spread then stores that value as the status. */
  lemma UpdateCanStoreFalsyStatus(st: Service.Store, clock: Clock, idText: string, body: Value)
    requires Service.Valid(st)
    requires Update(st, clock, idText, body).outcome.Ok?
    requires HasOwn(Data(body), "status") && Property(Data(body), "status") == Str("")
    ensures var id := Text.ParseDecimal(idText).value;
      && id in Update(st, clock, idText, body).store.rows
      && Update(st, clock, idText, body).store.rows[id].status == Str("")
      && !IsKnownStatus(Update(st, clock, idText, body).store.rows[id].status)
  {
  }

  /** Every stored status is one of the four known values. */
  predicate StatusesKnown(st: Service.Store)
  {
    forall k :: k in st.rows ==> IsKnownStatus(st.rows[k].status)
  }

  /** Creating stores "booked", so every stored status stays known. */
  lemma CreateKeepsStatusesKnown(st: Service.Store, clock: Clock, body: Value)
    requires StatusesKnown(st)
    ensures StatusesKnown(Create(st, clock, body).store)
  {
  }

  /** The status route stores only one of the four known statuses. */
  lemma UpdateStatusKeepsStatusesKnown(st: Service.Store, idText: string, body: Value)
    requires StatusesKnown(st)
    ensures StatusesKnown(UpdateStatus(st, idText, body).store)
  {
  }

  /** The full update keeps every stored status known unless its body carries a
      falsy status of its own. */
  lemma UpdateKeepsStatusesKnown(st: Service.Store, clock: Clock, idText: string, body: Value)
    requires StatusesKnown(st)
    requires !HasOwn(Data(body), "status") || Truthy(Property(Data(body), "status"))
    ensures StatusesKnown(Update(st, clock, idText, body).store)
  {
  }
}

=== FILE: service.dfy ===
/**
  The reservations table and the five queries the controller issues against
  it. The table is a map from `reservation_id` to row plus the next value of
  the id sequence; each query is a pure function from store to result (and new
  store, for writes).
*/
module Service {
  import opened Options
  import opened Json
  import Text

  /** A row of the reservations table. Columns hold the JSON values that were
      written into them. */
  datatype Reservation = Reservation(
    reservation_id: int,
    first_name: Value,
    last_name: Value,
    mobile_number: Value,
    reservation_date: Value,
    reservation_time: Value,
    people: Value,
    status: Value)

  /** The columns a request body can write. */
  const Columns: seq<string> :=
    ["first_name", "last_name", "mobile_number", "reservation_date", "reservation_time", "people", "status"]

  /** Whether an update names a column the table does not have; the database
      refuses such an update as a whole. */
  predicate NamesUnknownColumn(fields: map<string, Value>)
  {
    exists k :: k in fields && k !in Columns && k != "reservation_id"
  }

  /** A column of a row, by name. */
  function Column(r: Reservation, name: string): Value
  {
    if name == "first_name" then r.first_name
    else if name == "last_name" then r.last_name
    else if name == "mobile_number" then r.mobile_number
    else if name == "reservation_date" then r.reservation_date
    else if name == "reservation_time" then r.reservation_time
    else if name == "people" then r.people
    else if name == "status" then r.status
    else Undefined
  }

  /** The table: rows by id, and the next id the sequence hands out. */
  datatype Store = Store(rows: map<int, Reservation>, nextId: int)


  /** Ids are positive, below the sequence's next value, and stored in the row. */
  predicate Valid(st: Store)
  {
    && st.nextId >= 1
    && forall k :: k in st.rows ==> 1 <= k < st.nextId && st.rows[k].reservation_id == k
  }

  function Pick(fields: map<string, Value>, name: string, otherwise: Value): Value
  {
    if name in fields then fields[name] else otherwise
  }

  /** `{ ...row, ...fields }` restricted to the table's columns. */
  function Patch(r: Reservation, fields: map<string, Value>): (p: Reservation)
    ensures p.reservation_id == r.reservation_id
    ensures forall c :: c in Columns ==> Column(p, c) == if c in fields then fields[c] else Column(r, c)
  {
    Reservation(
      r.reservation_id,
      Pick(fields, "first_name", r.first_name),
      Pick(fields, "last_name", r.last_name),
      Pick(fields, "mobile_number", r.mobile_number),
      Pick(fields, "reservation_date", r.reservation_date),
      Pick(fields, "reservation_time", r.reservation_time),
      Pick(fields, "people", r.people),
      Pick(fields, "status", r.status))
  }

  function Blank(id: int): Reservation
  {
    Reservation(id, Null, Null, Null, Null, Null, Null, Null)
  }

  /** Inserting a row and returning it: the row gets the sequence's next id, and
      columns not supplied are null. */
  function Create(st: Store, fields: map<string, Value>): (out: (Reservation, Store))
    ensures out.0.reservation_id == st.nextId
    ensures forall c :: c in Columns ==> Column(out.0, c) == if c in fields then fields[c] else Null
    ensures out.1.nextId == st.nextId + 1
    ensures out.1.rows.Keys == st.rows.Keys + {st.nextId}
    ensures forall k :: k in st.rows && k != st.nextId ==> out.1.rows[k] == st.rows[k]
    ensures Valid(st) ==> st.nextId !in st.rows && Valid(out.1)
  {
    var row := Patch(Blank(st.nextId), fields);
    (row, Store(st.rows[st.nextId := row], st.nextId + 1))
  }

  /** The row stored under `id`, if any. */
  function Read(st: Store, id: int): (r: Option<Reservation>)
    ensures r.Some? <==> id in st.rows
    ensures r.Some? ==> r.value == st.rows[id]
    ensures Valid(st) && r.Some? ==> r.value.reservation_id == id
  {
    if id in st.rows then Some(st.rows[id]) else None
  }

  /** Overwriting the supplied columns of the row stored under `id` and returning
      the rows changed: that one row, or none when no row has that id. */
  function Update(st: Store, id: int, fields: map<string, Value>): (out: (seq<Reservation>, Store))
    ensures out.1.nextId == st.nextId && out.1.rows.Keys == st.rows.Keys
    ensures forall k :: k in st.rows && k != id ==> out.1.rows[k] == st.rows[k]
    ensures id in st.rows ==> out.1.rows[id] == Patch(st.rows[id], fields) && out.0 == [out.1.rows[id]]
    ensures id !in st.rows ==> out.0 == [] && out.1 == st
    ensures Valid(st) ==> Valid(out.1)
  {
    if id in st.rows then
      var row := Patch(st.rows[id], fields);
      ([row], Store(st.rows[id := row], st.nextId))
    else
      ([], st)
  }

  /** Overwriting only the status of the row stored under `id`, if any. */
  function UpdateStatus(st: Store, id: int, status: Value): (st': Store)
    ensures st'.nextId == st.nextId && st'.rows.Keys == st.rows.Keys
    ensures forall k :: k in st.rows && k != id ==> st'.rows[k] == st.rows[k]
    ensures id in st.rows ==> st'.rows[id].status == status
    ensures id in st.rows ==> st'.rows[id].reservation_id == st.rows[id].reservation_id
    ensures id in st.rows ==> forall c :: c in Columns && c != "status" ==> Column(st'.rows[id], c) == Column(st.rows[id], c)
    ensures Valid(st) ==> Valid(st')
  {
    if id in st.rows then Store(st.rows[id := st.rows[id].(status := status)], st.nextId) else st
  }

  /** A status-only write is the general update with the single field `status`. */
  lemma UpdateStatusIsStatusPatch(st: Store, id: int, status: Value)
    ensures UpdateStatus(st, id, status) == Update(st, id, map["status" := status]).1
  {
  }

  /** Reading the row just created gives it back, with the supplied columns. */
  lemma ReadAfterCreate(st: Store, fields: map<string, Value>)
    ensures var (row, st') := Create(st, fields);
      && Read(st', row.reservation_id) == Some(row)
      && forall c :: c in Columns && c in fields ==> Column(row, c) == fields[c]
  {
  }

  // ---------------------------------------------------------------------------
  // Listing

  /** Which rows a filter keeps. */
  datatype Where = DateIs(date: string) | MobileStartsWith(prefix: string) | NotFinished

  predicate Matches(w: Where, r: Reservation)
  {
    match w
    case DateIs(d) => r.reservation_date == Str(d)
    case MobileStartsWith(p) => r.mobile_number.Str? && p <= r.mobile_number.s
    case NotFinished => r.status != Str("finished")
  }

  /** The rows of `xs` that `w` keeps, in their order. */
  function Filter(xs: seq<Reservation>, w: Where): (ys: seq<Reservation>)
    ensures forall y :: y in ys <==> y in xs && Matches(w, y)
    ensures |ys| <= |xs|
  {
    if |xs| == 0 then [] else (if Matches(w, xs[0]) then [xs[0]] else []) + Filter(xs[1..], w)
  }

  /** Filtering commutes with concatenation, so kept rows keep their order. */
  lemma {:induction false} FilterAppend(xs: seq<Reservation>, ys: seq<Reservation>, w: Where)
    ensures Filter(xs + ys, w) == Filter(xs, w) + Filter(ys, w)
  {
    if |xs| > 0 {
      assert (xs + ys)[1..] == xs[1..] + ys;
      FilterAppend(xs[1..], ys, w);
    } else {
      assert xs + ys == ys;
    }
  }

  /** Rows with ids in [lo, hi), in id order. */
  function Scan(rows: map<int, Reservation>, lo: int, hi: int): seq<Reservation>
    decreases hi - lo
  {
    if lo >= hi then [] else (if lo in rows then [rows[lo]] else []) + Scan(rows, lo + 1, hi)
  }

  /** Every row of the table, in id order. */
  function AllRows(st: Store): seq<Reservation>
  {
    Scan(st.rows, 1, st.nextId)
  }

  predicate IdsIncreasing(xs: seq<Reservation>)
  {
    forall i, j :: 0 <= i < j < |xs| ==> xs[i].reservation_id < xs[j].reservation_id
  }

  /** A row is stored under its own id. */
  predicate Stored(st: Store, x: Reservation)
  {
    x.reservation_id in st.rows && st.rows[x.reservation_id] == x
  }

  lemma {:induction false} ScanContents(rows: map<int, Reservation>, lo: int, hi: int)
    requires forall k :: k in rows ==> rows[k].reservation_id == k
    ensures forall x :: x in Scan(rows, lo, hi) <==>
      lo <= x.reservation_id < hi && x.reservation_id in rows && rows[x.reservation_id] == x
    ensures IdsIncreasing(Scan(rows, lo, hi))
    decreases hi - lo
  {
    if lo < hi {
      ScanContents(rows, lo + 1, hi);
    }
  }

  /** Listing everything yields each stored row exactly once, in id order. */
  lemma AllRowsExactly(st: Store)
    requires Valid(st)
    ensures forall x :: x in AllRows(st) <==> Stored(st, x)
    ensures IdsIncreasing(AllRows(st))
  {
    ScanContents(st.rows, 1, st.nextId);
  }

  /** The text the database orders `reservation_time` by. */
  function TimeKey(r: Reservation): string
  {
    if r.reservation_time.Str? then r.reservation_time.s else ""
  }

  predicate SortedByTime(xs: seq<Reservation>)
  {
    forall i :: 0 <= i < |xs| - 1 ==> Text.LexLeq(TimeKey(xs[i]), TimeKey(xs[i + 1]))
  }

  function InsertByTime(r: Reservation, xs: seq<Reservation>): (ys: seq<Reservation>)
    ensures multiset(ys) == multiset(xs) + multiset{r}
    ensures |ys| == |xs| + 1
    ensures ys[0] == r || (|xs| > 0 && ys[0] == xs[0])
    ensures SortedByTime(xs) ==> SortedByTime(ys)
  {
    if |xs| == 0 then [r]
    else if Text.LexLeq(TimeKey(r), TimeKey(xs[0])) then [r] + xs
    else
      Text.LexLeqTotal(TimeKey(r), TimeKey(xs[0]));
      assert xs == [xs[0]] + xs[1..];
      [xs[0]] + InsertByTime(r, xs[1..])
  }

  /** Ordering rows by reservation time, earliest first; rows with equal times
      keep their relative order. */
  function SortByTime(xs: seq<Reservation>): (ys: seq<Reservation>)
    ensures SortedByTime(ys)
    ensures multiset(ys) == multiset(xs)
  {
    if |xs| == 0 then []
    else
      assert xs == [xs[0]] + xs[1..];
      InsertByTime(xs[0], SortByTime(xs[1..]))
  }

  /** A query-string parameter counts when it is present and non-empty. */
  predicate Given(q: Option<string>)
  {
    q.Some? && q.value != ""
  }

  /** The listing query: the rows on an exact date ordered by time, else the
      rows whose phone number starts with a prefix, else every row. */
  function List(st: Store, date: Option<string>, mobile: Option<string>): (r: seq<Reservation>)
    ensures Given(date) ==> SortedByTime(r)
    ensures Given(date) ==> multiset(r) == multiset(Filter(AllRows(st), DateIs(date.value)))
  {
    if Given(date) then SortByTime(Filter(AllRows(st), DateIs(date.value)))
    else if Given(mobile) then Filter(AllRows(st), MobileStartsWith(mobile.value))
    else AllRows(st)
  }

  /** The rows `List` returns are exactly the stored rows the query selects:
      the date wins over the phone number, and with neither every row comes back. */
  lemma ListExactly(st: Store, date: Option<string>, mobile: Option<string>)
    requires Valid(st)
    ensures Given(date) ==>
      forall x :: x in List(st, date, mobile) <==> Stored(st, x) && x.reservation_date == Str(date.value)
    ensures !Given(date) && Given(mobile) ==>
      forall x :: x in List(st, date, mobile) <==>
        Stored(st, x) && x.mobile_number.Str? && mobile.value <= x.mobile_number.s
    ensures !Given(date) && !Given(mobile) ==>
      forall x :: x in List(st, date, mobile) <==> Stored(st, x)
  {
    AllRowsExactly(st);
    if Given(date) {
      var f := Filter(AllRows(st), DateIs(date.value));
      forall x
        ensures x in List(st, date, mobile) <==> x in f
      {
        assert x in List(st, date, mobile) <==> x in multiset(List(st, date, mobile));
        assert x in f <==> x in multiset(f);
      }
    }
  }

  /** Each stored row is listed once: the listing has no repeated row. */
  lemma ListNoDuplicates(st: Store, date: Option<string>, mobile: Option<string>)
    requires Valid(st)
    requires !Given(date)
    ensures IdsIncreasing(List(st, date, mobile))
  {
    AllRowsExactly(st);
    if Given(mobile) {
      FilterKeepsIncreasing(AllRows(st), MobileStartsWith(mobile.value));
    }
  }

  lemma {:induction false} FilterKeepsIncreasing(xs: seq<Reservation>, w: Where)
    requires IdsIncreasing(xs)
    ensures IdsIncreasing(Filter(xs, w))
  {
    if |xs| > 0 {
      FilterKeepsIncreasing(xs[1..], w);
      var rest := Filter(xs[1..], w);
      forall y | y in rest
        ensures xs[0].reservation_id < y.reservation_id
      {
        assert y in xs[1..];
      }
    }
  }
}

=== FILE: text.dfy ===
/**
  Character-level helpers: decimal digits (the route parameter is read with
  `Number(...)`), decimal text of a natural number, and the lexicographic order
  the database uses to sort times written as fixed-width text.
*/
module Text {
  import opened Options

  predicate IsDigit(c: char)
  {
    '0' <= c <= '9'
  }

  predicate AllDigits(s: string)
  {
    forall i :: 0 <= i < |s| ==> IsDigit(s[i])
  }

  function DigitsValue(s: string): nat
    requires AllDigits(s)
  {
    if |s| == 0 then 0
    else 10 * DigitsValue(s[..|s| - 1]) + ((s[|s| - 1] as int) - ('0' as int))
  }

  /** `Number(s)` for a non-empty run of decimal digits; anything else is None. */
  function ParseDecimal(s: string): Option<nat>
  {
    if |s| > 0 && AllDigits(s) then Some(DigitsValue(s)) else None
  }

  function DigitChar(d: nat): (c: char)
    requires d < 10
    ensures IsDigit(c)
  {
    ('0' as int + d) as char
  }

  /** Decimal text of `n`, without leading zeros. */
  function IntText(n: nat): (s: string)
    ensures |s| > 0 && AllDigits(s)
    ensures s[0] == '0' ==> n == 0
  {
    if n < 10 then [DigitChar(n)] else IntText(n / 10) + [DigitChar(n % 10)]
  }

  /** Reading back the text of a number gives the number. */
  lemma {:induction false} ParseIntText(n: nat)
    ensures ParseDecimal(IntText(n)) == Some(n)
  {
    var s := IntText(n);
    if n >= 10 {
      ParseIntText(n / 10);
      assert s[..|s| - 1] == IntText(n / 10);
    } else {
      assert s[..|s| - 1] == [];
      assert (s[|s| - 1] as int) - ('0' as int) == n;
      assert DigitsValue(s[..|s| - 1]) == 0;
      assert DigitsValue(s) == n;
    }
  }

  /** Distinct numbers have distinct texts. */
  lemma IntTextInjective(m: nat, n: nat)
    requires IntText(m) == IntText(n)
    ensures m == n
  {
    ParseIntText(m);
    ParseIntText(n);
  }

  /** Lexicographic order on text (code-unit order). */
  predicate LexLeq(a: string, b: string)
  {
    |a| == 0 || (|b| > 0 && (a[0] < b[0] || (a[0] == b[0] && LexLeq(a[1..], b[1..]))))
  }

  lemma {:induction false} LexLeqTotal(a: string, b: string)
    ensures LexLeq(a, b) || LexLeq(b, a)
  {
    if |a| > 0 && |b| > 0 && a[0] == b[0] {
      LexLeqTotal(a[1..], b[1..]);
    }
  }

  lemma {:induction false} LexLeqTransitive(a: string, b: string, c: string)
    requires LexLeq(a, b) && LexLeq(b, c)
    ensures LexLeq(a, c)
  {
    if |a| > 0 && |b| > 0 && |c| > 0 && a[0] == b[0] && b[0] == c[0] {
      LexLeqTransitive(a[1..], b[1..], c[1..]);
    }
  }
}

=== FILE: validators.dfy ===
/**
  The checks the reservation routes run before their handlers. Each is a pure
  decision: it lets the request through (`Pass`) or stops it with the error the
  client receives.
*/
module Validators {
  import opened Options
  import opened Json
  import opened Errors
  import opened Calendar
  import Service
  import Text

  // ---------------------------------------------------------------------------
  // validateData

  /** The `data` property of a request body, which every check reads from. */
  function Data(body: Value): (d: Value)
    ensures HasOwn(body, "data") ==> d == body.fields["data"]
    ensures !HasOwn(body, "data") ==> d == Undefined
  {
    Property(body, "data")
  }

  /** The body must carry a truthy `data` property. */
  function ValidateData(body: Value): (c: Check)
    ensures c == Pass <==> Truthy(Data(body))
    ensures c.Fail? ==> c.error == Error(BadRequest, MissingData)
  {
    if !Truthy(Data(body)) then Fail(Error(BadRequest, MissingData)) else Pass
  }

  // ---------------------------------------------------------------------------
  // validateBody

  /** The fields a create or full update must supply, in the order they are checked. */
  const RequiredFields: seq<string> :=
    ["first_name", "last_name", "mobile_number", "reservation_date", "reservation_time", "people"]

  /** A field is supplied when it is an own property of `data` other than "". */
  predicate Supplied(data: Value, field: string)
  {
    HasOwn(data, field) && Property(data, field) != Str("")
  }

  /** Index of the first required field from `k` on that is not supplied;
      `|RequiredFields|` when there is none. */
  function FirstMissing(data: Value, k: nat): (i: nat)
    requires k <= |RequiredFields|
    ensures k <= i <= |RequiredFields|
    ensures forall j :: k <= j < i ==> Supplied(data, RequiredFields[j])
    ensures i < |RequiredFields| ==> !Supplied(data, RequiredFields[i])
    decreases |RequiredFields| - k
  {
    if k == |RequiredFields| || !Supplied(data, RequiredFields[k]) then k
    else FirstMissing(data, k + 1)
  }

  /** `people` must have type number and be at least 1; integrality is not asked. */
  predicate PeopleAcceptable(people: Value)
  {
    people.Num? && people.x >= 1.0
  }

  /** A status in a create or update body is either absent (falsy) or "booked". */
  predicate BodyStatusAcceptable(status: Value)
  {
    !Truthy(status) || status == Str("booked")
  }

  /** `data.hasOwnProperty(field)` looks the method up on `data` first: an own
      property of that name (JSON cannot make it a function) hides the inherited
      method, and the call throws a TypeError. */
  predicate ShadowsHasOwnProperty(data: Value)
  {
    HasOwn(data, "hasOwnProperty")
  }

  /** Everything `validateBody` demands of `data`, as one condition. */
  predicate BodyAcceptable(data: Value, clock: Clock)
  {
    && !ShadowsHasOwnProperty(data)
    && (forall f :: f in RequiredFields ==> Supplied(data, f))
    && clock.parses(Property(data, "reservation_date"), Property(data, "reservation_time"))
    && PeopleAcceptable(Property(data, "people"))
    && BodyStatusAcceptable(Property(data, "status"))
  }

  function ValidateBody(data: Value, clock: Clock): (c: Check)
    ensures c == Pass <==> BodyAcceptable(data, clock)
    ensures c == Pass ==> data.Obj?
    ensures ShadowsHasOwnProperty(data) <==> c == Fail(Error(ServerError, HasOwnPropertyShadowed))
    ensures c.Fail? && !ShadowsHasOwnProperty(data) ==> c.error.status == BadRequest
  {
    var i := FirstMissing(data, 0);
    var people := Property(data, "people");
    var status := Property(data, "status");
    if ShadowsHasOwnProperty(data) then
      Fail(Error(ServerError, HasOwnPropertyShadowed))
    else if i < |RequiredFields| then
      Fail(Error(BadRequest, FieldRequired(RequiredFields[i])))
    else if !clock.parses(Property(data, "reservation_date"), Property(data, "reservation_time")) then
      Fail(Error(BadRequest, BadDateTime))
    else if !people.Num? then
      Fail(Error(BadRequest, PeopleNotNumber))
    else if people.x < 1.0 then
      Fail(Error(BadRequest, PeopleBelowOne))
    else if Truthy(status) && status != Str("booked") then
      Fail(Error(BadRequest, StatusNotAllowed(status)))
    else
      assert Supplied(data, RequiredFields[0]);
      Pass
  }

  /** The error names the first required field, in the fixed order, that is
      missing or "". */
  lemma ReportsFirstMissingField(data: Value, clock: Clock, i: nat)
    requires !ShadowsHasOwnProperty(data)
    requires i < |RequiredFields|
    requires !Supplied(data, RequiredFields[i])
    requires forall j :: 0 <= j < i ==> Supplied(data, RequiredFields[j])
    ensures ValidateBody(data, clock) == Fail(Error(BadRequest, FieldRequired(RequiredFields[i])))
  {
  }

  /** How `people` is judged once the required fields and the date parse:
      a non-number is refused, a number below 1 is refused, any number from 1 up
      (fractions included) gets past both checks. A present 0 is not "missing". */
  lemma PeopleChecks(data: Value, clock: Clock)
    requires !ShadowsHasOwnProperty(data)
    requires forall f :: f in RequiredFields ==> Supplied(data, f)
    requires clock.parses(Property(data, "reservation_date"), Property(data, "reservation_time"))
    ensures !Property(data, "people").Num? ==>
      ValidateBody(data, clock) == Fail(Error(BadRequest, PeopleNotNumber))
    ensures Property(data, "people").Num? && Property(data, "people").x < 1.0 ==>
      ValidateBody(data, clock) == Fail(Error(BadRequest, PeopleBelowOne))
    ensures Property(data, "people").Num? && Property(data, "people").x >= 1.0 ==>
      (ValidateBody(data, clock) == Pass || ValidateBody(data, clock).error.reason.StatusNotAllowed?)
  {
    assert FirstMissing(data, 0) == |RequiredFields|;
  }

  /** A present `people` of 0 passes the presence check and is refused by the
      range check instead. */
  lemma ZeroPeopleIsSupplied(data: Value)
    requires HasOwn(data, "people") && Property(data, "people") == Num(0.0)
    ensures Supplied(data, "people")
    ensures !PeopleAcceptable(Property(data, "people"))
  {
  }

  /** Once everything else is acceptable, the body passes exactly when its status
      is absent/falsy or "booked"; any other truthy status is refused and quoted. */
  lemma StatusCheck(data: Value, clock: Clock)
    requires !ShadowsHasOwnProperty(data)
    requires forall f :: f in RequiredFields ==> Supplied(data, f)
    requires clock.parses(Property(data, "reservation_date"), Property(data, "reservation_time"))
    requires PeopleAcceptable(Property(data, "people"))
    ensures ValidateBody(data, clock) == Pass <==> BodyStatusAcceptable(Property(data, "status"))
    ensures !BodyStatusAcceptable(Property(data, "status")) ==>
      ValidateBody(data, clock) == Fail(Error(BadRequest, StatusNotAllowed(Property(data, "status"))))
  {
    assert FirstMissing(data, 0) == |RequiredFields|;
  }

  // ---------------------------------------------------------------------------
  // validateDate

  /** The restaurant's schedule, applied to the `Date` the body denotes (`at`,
      None for an Invalid Date) at instant `now`. */
  function ValidateDate(at: Option<Moment>, now: int): (c: Check)
    ensures c.Fail? ==> c.error.status == BadRequest
  {
    match at
    case None => Pass
    case Some(m) =>
      if m.utcWeekday == Tuesday then Fail(Error(BadRequest, ClosedTuesday))
      else if m.instant < now then Fail(Error(BadRequest, InPast))
      else if m.hour < 10 || (m.hour == 10 && m.minute < 30) then Fail(Error(BadRequest, NotOpenYet))
      else if m.hour > 22 || (m.hour == 22 && m.minute >= 30) then Fail(Error(BadRequest, ClosedAfter))
      else if m.hour > 21 || (m.hour == 21 && m.minute > 30) then Fail(Error(BadRequest, HourBeforeClosing))
      else Pass
  }

  /** The closed-day check comes first: a Tuesday is refused as such even when it
      is also in the past or outside the opening hours. */
  lemma TuesdayWins(m: Moment, now: int)
    requires m.utcWeekday == Tuesday
    ensures ValidateDate(Some(m), now) == Fail(Error(BadRequest, ClosedTuesday))
  {
  }

  /** Only an instant strictly before `now` is in the past; `now` itself is not. */
  lemma PastIsStrict(m: Moment, now: int)
    requires m.utcWeekday != Tuesday
    ensures ValidateDate(Some(m), now).Fail? && ValidateDate(Some(m), now).error.reason == InPast
      <==> m.instant < now
  {
  }

  /** On an open day and not in the past, a time is accepted exactly when it lies
      in 10:30..21:30 inclusive; before it the restaurant is not open, from 22:30
      it is closed, and in between it is too close to closing. */
  lemma OpeningHours(m: Moment, now: int)
    requires WellFormed(m)
    requires m.utcWeekday != Tuesday && m.instant >= now
    ensures ValidateDate(Some(m), now) == Pass <==> Opening <= MinuteOfDay(m) <= LastBooking
    ensures MinuteOfDay(m) < Opening ==>
      ValidateDate(Some(m), now) == Fail(Error(BadRequest, NotOpenYet))
    ensures MinuteOfDay(m) >= Closing ==>
      ValidateDate(Some(m), now) == Fail(Error(BadRequest, ClosedAfter))
    ensures LastBooking < MinuteOfDay(m) < Closing ==>
      ValidateDate(Some(m), now) == Fail(Error(BadRequest, HourBeforeClosing))
  {
  }

  /** When the text does not make a valid `Date`, every comparison in the check
      is false and the request gets through all the schedule rules. */
  lemma InvalidDatePasses(now: int)
    ensures ValidateDate(None, now) == Pass
  {
  }

  // ---------------------------------------------------------------------------
  // validateReservation

  /** The reservation named by the route parameter, or 404. */
  function ValidateReservation(st: Service.Store, idText: string): (r: Result<Service.Reservation>)
    ensures r.Ok? <==> Text.ParseDecimal(idText).Some? && Text.ParseDecimal(idText).value in st.rows
    ensures r.Ok? ==> r.value == st.rows[Text.ParseDecimal(idText).value]
    ensures r.Err? ==> r.error == Error(NotFound, UnknownReservation(idText))
  {
    match Text.ParseDecimal(idText)
    case None => Err(Error(NotFound, UnknownReservation(idText)))
    case Some(id) =>
      match Service.Read(st, id)
      case None => Err(Error(NotFound, UnknownReservation(idText)))
      case Some(r) => Ok(r)
  }

  /** Every stored reservation is found under the decimal text of its id. */
  lemma FindsStoredReservation(st: Service.Store, id: nat)
    requires id in st.rows
    ensures ValidateReservation(st, Text.IntText(id)) == Ok(st.rows[id])
  {
    Text.ParseIntText(id);
  }

  // ---------------------------------------------------------------------------
  // validateUpdateStatus

  const KnownStatuses: set<string> := {"booked", "seated", "finished", "cancelled"}

  predicate IsKnownStatus(v: Value)
  {
    v.Str? && v.s in KnownStatuses
  }

  /** The requested status against the reservation as currently stored. */
  function ValidateUpdateStatus(data: Value, current: Service.Reservation): (c: Check)
    ensures c.Fail? ==> c.error.status == BadRequest
    ensures c == Pass <==> IsKnownStatus(Property(data, "status")) && current.status != Str("finished")
    ensures !Truthy(Property(data, "status")) ==> c == Fail(Error(BadRequest, MissingStatus))
    ensures Truthy(Property(data, "status")) && !IsKnownStatus(Property(data, "status")) ==>
      c == Fail(Error(BadRequest, StatusNotAllowed(Property(data, "status"))))
    ensures IsKnownStatus(Property(data, "status")) && current.status == Str("finished") ==>
      c == Fail(Error(BadRequest, FinishedFrozen))
  {
    var s := Property(data, "status");
    if !Truthy(s) then
      Fail(Error(BadRequest, MissingStatus))
    else if s != Str("booked") && s != Str("seated") && s != Str("finished") && s != Str("cancelled") then
      Fail(Error(BadRequest, StatusNotAllowed(s)))
    else if current.status == Str("finished") then
      Fail(Error(BadRequest, FinishedFrozen))
    else
      Pass
  }
}
